=== FILE: README.md ===
# Spray-paint stroke and palette rules in Dafny

This project models the pure rules inside `script.js`, the single-file
browser spray-paint tool built on PIXI. The rest of that file is rendering
and DOM glue. The modelled rules are:

- **Stroke interpolation** (`lerp`, `handleDrawing`): how many stamps one
  pointer event produces (`floor(dist / (size / 3))` clamped to 1..7), and
  where they go (`lerp(last, cur, i / steps)` for `i` in `0..steps-1`).
- **Pointer state machine**: the `pointerdown` / `pointermove` /
  `pointerup` / `pointerleave` handlers over `isDrawing` and `lastPos`, as
  an event-step function that returns the stamp centres sprayed.
- **Hex colours**: the channel extraction of `hexToRGBA` (three-digit
  shorthand, or three two-digit slices) and the picker's `#rrggbb` builder
  (`toString(16).padStart(2, '0')`). Round trips are proved in both
  directions.
- **Gradient texture cache** (`getRadialGradientTexture`): a memo map keyed
  by colour, radius and `alpha.toFixed(2)`. Textures are opaque tokens with
  fresh ids. Also modelled: `spray`'s placement of the sprite, so that the
  gradient is centred on the stamp.
- **Palette store**: the 20 default colours, `loadPalette` with its
  fallback, `savePalette`, and `addColorToPalette` (append if absent, exact
  string comparison).
- **Surface read-back geometry**: the clamp in `extractRegion`, the RGBA
  pixel offset `(y * width + x) * 4`, and the right-click colour pick built
  on it.

Modules, one per file: `Wrappers` (Option, standing for `null`), `Stroke`,
`Pointer`, `HexColor`, `GradientCache`, `Palette`, `Region`, `Picker`.
Pointer coordinates, sizes and alphas are Dafny `real`s standing in for
JavaScript numbers. Pixel geometry uses `int`.

Three modelling choices:

- **No square root.** The Euclidean distance is never computed. The step
  count is derived from the squared distance: it is the largest `k` in
  1..7 with `(k * size / 3)^2 <= dx^2 + dy^2`, or 1 when none does. The lemma
  `Stroke.SquaredStepCountAgrees` proves this equals the source's
  `floor`/`min`/`max` count for every `dist >= 0` with
  `dist * dist == dx^2 + dy^2`.
- **Rounding as a value.** `toFixed(2)` is a value
  `Fixed2(negative, hundredths)`: the sign is split off, and the magnitude
  is rounded to the nearest hundredth with ties going up.
- **Textures remember their arguments.** A texture records the arguments
  it was created with, including the *unrounded* alpha. A cache hit can
  therefore return a texture drawn for a slightly different alpha that
  rounds to the same key, exactly as in the source.

Behaviours of the code worth knowing, which the model keeps:

- `pointerdown` sets `lastPos` *before* calling `handleDrawing`. The first
  stamp of a stroke therefore comes from the interpolation path, with
  distance 0. The `null` branch is unreachable from the handlers, though
  it is still modelled.
- `loadPalette` accepts any non-empty array and checks neither uniqueness
  nor element type. `Palette.Load` does the same.
- `addColorToPalette` compares strings exactly. The colour input reports
  lower-case hex, but the default list is upper case. So adding the
  default orange from the picker appends `#ff7f0e` next to `#FF7F0E`.
  `Palette.AddIsCaseSensitive` proves this.

## Model

| member | source | states |
|---|---|---|
| Stroke.Lerp | script.js:116-118 | `lerp` returns the start at `t = 0` and the end at `t = 1` |
| Stroke.LerpPoint | script.js:155-156 | both coordinates are interpolated with the same parameter: the start point at `t = 0` and the end point at `t = 1` |
| Stroke.LerpStaysBetween | script.js:116-118 | for `t` in [0, 1] the interpolated value lies between the two endpoints |
| Stroke.StepCount | script.js:147-151 | the stamp count is between 1 and 7, and it is `floor(dist / (size / 3))` unless that falls below 1 or above 7 |
| Stroke.StepCountUnique | script.js:147-151 | the two floor bounds in `StepCount`'s contract determine the count uniquely, so the contract is a complete description |
| Stroke.StepsWithinIsClampedFloor | script.js:147-151 | counting down from a limit and comparing squared spacings yields `floor(dist / stepDist)` capped at the limit and raised to 1 |
| Stroke.SquaredStepCountAgrees | script.js:143-151 | the count computed from `dx^2 + dy^2` equals the count computed from any admissible `dist = sqrt(dx^2 + dy^2)` |
| Stroke.StepCountFromSquare | script.js:143-151 | the count the model of `handleDrawing` uses, taken from the squared distance, is between 1 and 7 (`Stroke.SquaredStepCountAgrees` equates it with the floor-and-clamp count) |
| Stroke.StepParameter | script.js:154 | every interpolation parameter `i / steps` lies in [0, 1), so the interpolation never reaches `t = 1` |
| Stroke.LerpBelowOneMissesTarget | script.js:153-157 | a point interpolated with `t < 1` equals the target only if the start already equals it |
| Stroke.Interpolated | script.js:153-158 | the stamps of one move: `steps` of them, the first at the retained position, the current position never among them when the pointer moved, and all inside the box spanned by the two positions |
| Stroke.InterpolatedEvenlySpaced | script.js:153-158 | consecutive stamps are exactly `(cur - last) / steps` apart on each axis |
| Stroke.InterpolateLoop | script.js:153-158 | the `for` loop emits exactly the interpolated stamp sequence, in order |
| Stroke.HandleDrawing | script.js:137-161 | `handleDrawing` emits 1 to 7 stamps; with no retained position it emits one stamp at the current position; otherwise the first stamp is the retained position, the current position is not stamped when it differs, and it is retained afterwards |
| Stroke.SquaredDistance | script.js:143-145 | `dx * dx + dy * dy`. It has no contract of its own: `Stroke.HandleDrawingStampCount` ties it to the Euclidean distance, and `Stroke.HandleDrawingAtRest` covers a zero-length move |
| Stroke.HandleDrawingStampCount | script.js:143-153 | from a retained position the number of stamps is exactly `clamp(floor(dist / (size / 3)), 1, 7)` for the Euclidean distance |
| Stroke.HandleDrawingAtRest | script.js:143-158 | without movement exactly one stamp is emitted, at the position itself |
| Pointer.Step | script.js:164-190 | a press with any button other than the secondary one (`e.button !== 2`) sets drawing and sprays exactly one stamp at the press point; a secondary-button press does nothing; a move while not drawing does nothing; a move while drawing sprays 1 to 7 stamps starting at the retained position and retains the new one; release and leave reset to idle with no stamps; "drawing iff a position is retained" is preserved |
| Pointer.RunKeepsConsistent | script.js:164-190 | every event sequence keeps "drawing iff a position is retained" |
| Pointer.NoPressNoPaint | script.js:177-190 | from a non-drawing state, events without a press of a non-secondary button spray nothing and never start drawing |
| Pointer.RunStampBound | script.js:147-151 | `n` events spray at most `7 n` stamps |
| Pointer.PressThenMove | script.js:164-185 | a press followed by a move sprays the press point, then starts interpolating from it, and retains the move's position |
| HexColor.DigitValue | script.js:77-83 | a hex digit of either case has a value in 0..15, below 10 exactly for decimal digits |
| HexColor.ParsePair | script.js:77-83 | two hex digits read as a byte |
| HexColor.StripMarker | script.js:74 | `replace('#', '')` leaves a string without `#` unchanged, drops a leading `#`, and shortens a string containing `#` by exactly one character |
| HexColor.StripMarkerRemovesFirst | script.js:74 | `replace('#', '')` on a string containing `#` cuts out exactly the first `#`, wherever it stands, and keeps everything before and after it |
| HexColor.ParseHex | script.js:73-85 | parsed channels are bytes, and parsing succeeds exactly for three hex digits, or for at least six characters whose first six are hex digits |
| HexColor.ShorthandExpands | script.js:76-83 | a three-digit colour has the same channels as its digit-doubled six-digit form |
| HexColor.ToBase16 | script.js:209 | `toString(16)` writes lower-case digits that denote the number, without leading zeros, at most two for a byte |
| HexColor.FormatChannel | script.js:209 | a byte is written as exactly two lower-case digits that read back as the byte |
| HexColor.PadStart | script.js:209 | `padStart(len, fill)`. It has no contract of its own: `HexColor.FormatChannel` states its effect at length 2 with fill `'0'`, namely two digits that read back as the byte |
| HexColor.FormatHex | script.js:209 | the picked colour is `#` followed by six lower-case hex digits |
| HexColor.FormatThenParse | script.js:209 | parsing the formatted string of any byte triple gives back that triple |
| HexColor.ParseThenFormat | script.js:73-85 | parsing `#` plus six hex digits succeeds, and formatting the result gives the marker followed by each of those digits in lower case |
| GradientCache.ToFixed2 | script.js:56 | `toFixed(2)` keeps the sign and rounds the magnitude to the nearest hundredth, ties upward |
| GradientCache.ToFixed2Interval | script.js:56 | a non-negative alpha renders as `n` hundredths exactly when it lies in `[n - 1/2, n + 1/2)` hundredths |
| GradientCache.NearbyAlphasShareRounding | script.js:56 | the exactly representable alphas 0.5 and 0.50390625 share the key component "0.50", and 0.4921875 gets "0.49" |
| GradientCache.EmptyValid | script.js:50 | the empty cache satisfies the cache invariant |
| GradientCache.KeyOf | script.js:56 | the key keeps the colour and the radius exactly, and the alpha only to the nearest hundredth: a non-negative alpha lies within half a hundredth of the key's value |
| GradientCache.Get | script.js:55-61 | a hit returns the stored texture and changes nothing; a miss creates exactly one fresh texture, adds exactly its key and leaves every other entry unchanged; the result is always stored under its key; the invariant is kept |
| GradientCache.SecondLookup | script.js:55-60 | a second lookup whose alpha has the same two-decimal rendering returns the identical texture and creates nothing; a different rendering returns a different texture |
| GradientCache.SprayAt | script.js:103-111 | `spray` draws the texture the cache lookup returns, with its corner at `(x - size, y - size)`, so the gradient is centred on the stamp; the cache after it is the lookup's |
| GradientCache.SprayAll | script.js:153-158 | spraying one event's stamps creates at most one texture and nothing at all when its key is cached; every sprite uses that texture and is centred on its stamp |
| Palette.DefaultPalette | script.js:12-34 | the default palette is the 20 default colours in their defined order |
| Palette.DefaultPaletteDistinct | script.js:12-34 | the 20 default colours are pairwise distinct |
| Palette.Load | script.js:222-230 | a non-empty parsed array is returned unchanged; a parse failure, `null`, a non-array or an empty array gives the default list; the result is never empty |
| Palette.Save | script.js:232-234 | the value written for a non-empty palette loads back as that palette, and the value written for an empty palette loads as the defaults |
| Palette.LoadSaved | script.js:222-234 | loading the saved value gives back the palette exactly when the palette is non-empty |
| Palette.Add | script.js:236-242 | the colour is present afterwards; existing entries keep their order; nothing changes iff an identical string is present; otherwise the colour is appended once and the saved value is the new list; a duplicate-free list stays duplicate-free |
| Palette.AddIdempotent | script.js:236-242 | adding the same colour twice is the same as adding it once |
| Palette.AddEntries | script.js:236-242 | the entries after adding are the entries before plus the colour |
| Palette.AddIsCaseSensitive | script.js:237 | `#ff7f0e` is appended to the default list although `#FF7F0E` is in it |
| Palette.AddThenReload | script.js:232-242 | after an add that appends, loading the saved value restores the palette |
| Region.ClampSpan | script.js:288-291 | the clamped start is non-negative and the span ends inside the source; the extent never grows; an extent that fits is kept; a request that fits is unchanged; an extent larger than the source becomes the whole source; when the extent fits, a negative start goes to 0 and a start that overhangs the far edge is pulled back to `source - extent` |
| Region.ClampSpanIdempotent | script.js:288-291 | clamping an already clamped span changes nothing |
| Region.ExtractRegion | script.js:288-293 | both axes of the region read are clamped into the source canvas, and a request that fits is read as it is; on each axis whose extent fits, a negative origin goes to 0 and an overhanging one is pulled back to `source - extent` |
| Region.PixelChannelsInBuffer | script.js:203-207 | the four channel indices of a pixel inside the canvas lie in a `width * height * 4` buffer |
| Region.PixelOffset | script.js:203 | `(y * width + x) * 4`. It has no contract of its own: `Region.PixelChannelsInBuffer` and `Region.PixelsDisjoint` state its meaning, namely that each pixel inside the canvas gets its own four-byte group inside the buffer |
| Region.PixelsDisjoint | script.js:203 | distinct pixels inside the canvas occupy disjoint groups of four bytes |
| Picker.PickColor | script.js:202-212 | when the pixel's alpha byte exists and is positive, the new colour is `#` followed by six lower-case hex digits, and it parses back to the pixel's channels; otherwise the colour is unchanged |
| Picker.PickInsideCanvas | script.js:202-210 | on a full buffer, a click inside the canvas picks that pixel exactly when its alpha is positive, and otherwise keeps the colour |

## Left out

- PIXI rendering is not modelled, because it is foreign library and GPU behaviour. This covers the canvas gradient drawn in `createRadialGradientTexture` (script.js:66-98, apart from the channel extraction), sprite creation and `renderer.render`, and the compositing in `spray`. Textures are tokens, and the surface's pixels appear only as the buffer handed to the picker.
- The `rgba(...)` string assembled by `hexToRGBA` is not modelled, because it is only handed to the canvas gradient API.
- HexColor.ParseHex: yields `None` whenever a channel would not be two hex digits. The source is weaker here: `parseInt` then gives `NaN`, or a partial value such as `parseInt('1g', 16) == 1`. Those values are not modelled.
- GradientCache.Key: the key is a tuple, not the string `${color}_${radius}_${alpha.toFixed(2)}`. The two agree unless the colour contains `_`, which the colour input never produces.
- GradientCache.ToFixed2: `toFixed` switches to exponent notation for magnitudes of at least 10^21. That case is not modelled, because alphas come from a 0..1 slider.
- The brush size arrives as a slider string (script.js:139, 148). It is modelled as an already-numeric positive real.
- The `size == 0` case is excluded by `size > 0` (script.js:148-151). There JavaScript divides by zero: a move of positive length gets an `Infinity` step count and sprays 7 stamps, and a move of zero length gets a `NaN` count, which `steps < 1` does not catch, so it sprays nothing.
- IEEE-754 rounding in `lerp`, `Math.sqrt` and `toFixed` is not modelled, because reals stand in for JavaScript numbers.
- The contextmenu coordinate scaling is not modelled: the picker takes already rounded buffer coordinates (script.js:196-197). Also left out are the temporary render texture, and the `try`/`catch` that logs extraction failures such as a tainted canvas.
- Not modelled, because it is DOM rendering: `renderPalette` and `updateSelectedPalette`, whose comparison of `style.backgroundColor` with a hex string depends on the browser's CSS normalisation (script.js:244-266). Nor are the alpha label text (script.js:127-129), the colour input listener, or the keydown binding (script.js:271-273), which only calls `addColorToPalette`.
- `localStorage` and `JSON.parse` / `JSON.stringify` are left out as I/O. Loading takes the parse outcome as input, and saving records the value that would be serialised.
- Palette.Save, Palette.LoadSaved and Palette.AddThenReload: all three feed the saved value straight back as the parse result. This assumes `JSON.parse(JSON.stringify(v))` gives back `v`, which holds for arrays of colour strings.
- `extractRegion` is not modelled beyond its clamp. Its canvas creation, `getImageData` / `putImageData` and `toDataURL` are browser APIs, and nothing in the file calls `extractRegion`.
- Export (script.js:300-321) and background upload with cover-fit scaling (script.js:326-370) are left out: they are asynchronous browser plumbing around the renderer.

=== FILE: gradientcache.dfy ===
/**
 The gradient texture cache (`getRadialGradientTexture`) and the stamp
 placement of `spray`.

 Textures are tokens: a texture records the id the cache gave it and the
 arguments `createRadialGradientTexture` was called with; the canvas
 drawing behind it is not modelled. The cache counts how many textures it
 has created, which is also the next fresh id.
 */
module GradientCache {
  import opened Stroke

  /**
   The string `alpha.toFixed(2)` as a value: its sign and its magnitude in
   hundredths. Distinct values render as distinct strings.
   */
  datatype Fixed2 = Fixed2(negative: bool, hundredths: nat)

  function Abs(a: real): real {
    if a < 0.0 then -a else a
  }

  /**
   `Number.prototype.toFixed(2)`: the sign is split off, then the
   magnitude is rounded to the nearest hundredth, ties going up.
   */
  function ToFixed2(a: real): (f: Fixed2)
    ensures f.negative <==> a < 0.0
    ensures Abs(a) * 100.0 - 0.5 < f.hundredths as real <= Abs(a) * 100.0 + 0.5
  {
    Fixed2(a < 0.0, (Abs(a) * 100.0 + 0.5).Floor)
  }

  /** A non-negative alpha renders as `n` hundredths exactly when it lies in `[n - 1/2, n + 1/2)` hundredths. */
  lemma ToFixed2Interval(a: real, n: nat)
    requires a >= 0.0
    ensures ToFixed2(a) == Fixed2(false, n) <==> n as real - 0.5 <= a * 100.0 < n as real + 0.5
  {
  }

  /**
   Alphas in the same interval `[n - 1/2, n + 1/2)` hundredths share the
   key, and alphas on either side of a boundary do not, however close. The
   alphas here are exact binary fractions, so a double holds them without
   error: 0.5 and 0.50390625 both render as "0.50", and 0.4921875 renders
   as "0.49".
   */
  lemma NearbyAlphasShareRounding()
    ensures ToFixed2(0.5) == ToFixed2(0.50390625) == Fixed2(false, 50)
    ensures ToFixed2(0.4921875) == Fixed2(false, 49)
  {
    ToFixed2Interval(0.5, 50);
    ToFixed2Interval(0.50390625, 50);
    ToFixed2Interval(0.4921875, 49);
  }

  /** The cache key `${color}_${radius}_${alpha.toFixed(2)}`, as a tuple. */
  datatype Key = Key(color: string, radius: real, alpha: Fixed2)

  /** The key keeps colour and radius, and the alpha only to the nearest hundredth. */
  function KeyOf(color: string, radius: real, alpha: real): (k: Key)
    ensures k.color == color && k.radius == radius
    ensures alpha >= 0.0 ==> !k.alpha.negative && k.alpha.hundredths as real - 0.5 <= alpha * 100.0 < k.alpha.hundredths as real + 0.5
  {
    Key(color, radius, ToFixed2(alpha))
  }

  /** A gradient texture: its identity and the arguments it was drawn with. */
  datatype Texture = Texture(id: nat, color: string, radius: real, alpha: real)

  /** The memo table and the number of textures created so far. */
  datatype Cache = Cache(entries: map<Key, Texture>, created: nat)

  /** The cache at start-up (`new Map()`). */
  const Empty: Cache := Cache(map[], 0)

  /** A texture was drawn with arguments that produce key `k`. */
  predicate Describes(k: Key, t: Texture) {
    t.color == k.color && t.radius == k.radius && ToFixed2(t.alpha) == k.alpha
  }

  /**
   Every entry was created by this cache, was drawn for its key, and no
   texture is shared between two keys.
   */
  predicate Valid(c: Cache) {
    && (forall k :: k in c.entries ==> c.entries[k].id < c.created && Describes(k, c.entries[k]))
    && (forall k, k' :: k in c.entries && k' in c.entries && k != k' ==> c.entries[k].id != c.entries[k'].id)
  }

  lemma EmptyValid()
    ensures Valid(Empty) && |Empty.entries| == 0
  {
  }

  /** The cache after a lookup, and the texture the lookup returned. */
  datatype Lookup = Lookup(cache: Cache, texture: Texture)

  /**
   `getRadialGradientTexture(color, radius, alpha)`: a hit returns the
   stored texture and changes nothing; a miss creates one texture (with
   the unrounded alpha), stores it under the key and returns it.
   */
  function Get(c: Cache, color: string, radius: real, alpha: real): (r: Lookup)
    ensures var k := KeyOf(color, radius, alpha);
            k in r.cache.entries && r.cache.entries[k] == r.texture
    ensures var k := KeyOf(color, radius, alpha);
            k in c.entries ==> r == Lookup(c, c.entries[k])
    ensures var k := KeyOf(color, radius, alpha);
            k !in c.entries ==>
              && r.cache.created == c.created + 1
              && r.cache.entries.Keys == c.entries.Keys + {k}
              && (forall k' :: k' in c.entries ==> r.cache.entries[k'] == c.entries[k'])
              && r.texture == Texture(c.created, color, radius, alpha)
    ensures Valid(c) ==> Valid(r.cache) && Describes(KeyOf(color, radius, alpha), r.texture)
    ensures Valid(c) && KeyOf(color, radius, alpha) !in c.entries ==>
              forall k :: k in c.entries ==> c.entries[k].id != r.texture.id
  {
    var k := KeyOf(color, radius, alpha);
    if k in c.entries then Lookup(c, c.entries[k])
    else
      var t := Texture(c.created, color, radius, alpha);
      Lookup(Cache(c.entries[k := t], c.created + 1), t)
  }

  /**
   A second lookup with an alpha of the same two-decimal rendering returns
   the very texture of the first and creates nothing; with a different
   rendering it returns a different texture.
   */
  lemma SecondLookup(c: Cache, color: string, radius: real, a1: real, a2: real)
    requires Valid(c)
    ensures var first := Get(c, color, radius, a1);
            var second := Get(first.cache, color, radius, a2);
            && (ToFixed2(a1) == ToFixed2(a2) ==> second == Lookup(first.cache, first.texture))
            && (ToFixed2(a1) != ToFixed2(a2) ==> second.texture.id != first.texture.id)
  {
    var first := Get(c, color, radius, a1);
    var k1, k2 := KeyOf(color, radius, a1), KeyOf(color, radius, a2);
    if k1 != k2 {
      assert first.cache.entries[k1] == first.texture;
    }
  }

  /** A sprite drawn onto the persistent surface: the texture and its top-left corner. */
  datatype Sprite = Sprite(texture: Texture, x: real, y: real)

  /** The result of `spray`: the cache after the lookup and the sprite rendered. */
  datatype Spray = Spray(cache: Cache, sprite: Sprite)

  /**
   `spray(x, y, color, size, alpha)`: looks the texture up with radius
   `size` and places its corner at `(x - size, y - size)`, so that the
   gradient's centre falls on the pointer position.
   */
  function SprayAt(c: Cache, at: Point, color: string, size: real, alpha: real): (r: Spray)
    ensures r.cache == Get(c, color, size, alpha).cache
    ensures Valid(c) ==> Valid(r.cache)
    ensures Valid(c) ==> r.sprite.x + r.sprite.texture.radius == at.x && r.sprite.y + r.sprite.texture.radius == at.y
    ensures r.sprite.texture == Get(c, color, size, alpha).texture
    ensures r.sprite.x + size == at.x && r.sprite.y + size == at.y
  {
    var lookup := Get(c, color, size, alpha);
    Spray(lookup.cache, Sprite(lookup.texture, at.x - size, at.y - size))
  }

  /** All sprites of one stroke event, and the cache afterwards. */
  datatype Sprays = Sprays(cache: Cache, sprites: seq<Sprite>)

  /**
   Sprays every stamp of one event in order. With fixed colour, size and
   alpha the whole event creates at most one texture, all its sprites share
   it, and each sprite is centred on its stamp.
   */
  function SprayAll(c: Cache, stamps: seq<Point>, color: string, size: real, alpha: real): (r: Sprays)
    requires Valid(c)
    ensures Valid(r.cache)
    ensures |r.sprites| == |stamps|
    ensures r.cache.created <= c.created + 1
    ensures KeyOf(color, size, alpha) in c.entries ==> r.cache == c
    ensures c.entries.Keys <= r.cache.entries.Keys
    ensures |stamps| > 0 ==> KeyOf(color, size, alpha) in r.cache.entries
    ensures forall i :: 0 <= i < |stamps| ==>
              && r.sprites[i].texture == r.cache.entries[KeyOf(color, size, alpha)]
              && r.sprites[i].x + size == stamps[i].x
              && r.sprites[i].y + size == stamps[i].y
    decreases |stamps|
  {
    if |stamps| == 0 then Sprays(c, [])
    else
      var first := SprayAt(c, stamps[0], color, size, alpha);
      var rest := SprayAll(first.cache, stamps[1..], color, size, alpha);
      Sprays(rest.cache, [first.sprite] + rest.sprites)
  }
}

=== FILE: hexcolor.dfy ===
/**
 Hex colour strings: the channel extraction of `hexToRGBA` (parsing) and
 the picker's `#rrggbb` builder (formatting), with the round trip between
 them.
 */
module HexColor {
  import opened Wrappers

  /** Three colour channels; each is a byte when the colour is well formed. */
  datatype Rgb = Rgb(r: int, g: int, b: int)

  predicate IsByte(n: int) {
    0 <= n < 256
  }

  /** A byte-valued number, such as an entry of a `Uint8Array`. */
  type Byte = n: int | IsByte(n)

  predicate ValidRgb(c: Rgb) {
    IsByte(c.r) && IsByte(c.g) && IsByte(c.b)
  }

  /** The colour marker that `hexToRGBA` strips. */
  const Marker: char := '#'

  /** The digits `parseInt(_, 16)` accepts, in either case. */
  predicate IsHexDigit(c: char) {
    '0' <= c <= '9' || 'a' <= c <= 'f' || 'A' <= c <= 'F'
  }

  predicate AllHex(s: string) {
    forall i :: 0 <= i < |s| ==> IsHexDigit(s[i])
  }

  /** The digits `Number.prototype.toString(16)` writes. */
  predicate IsLowerHexDigit(c: char) {
    '0' <= c <= '9' || 'a' <= c <= 'f'
  }

  function DigitValue(c: char): (v: int)
    requires IsHexDigit(c)
    ensures 0 <= v < 16
    ensures v < 10 <==> '0' <= c <= '9'
  {
    if '0' <= c <= '9' then c as int - '0' as int
    else if 'a' <= c <= 'f' then c as int - 'a' as int + 10
    else c as int - 'A' as int + 10
  }

  /** The lower-case digit for a value below 16. */
  function LowerDigit(v: int): (c: char)
    requires 0 <= v < 16
    ensures IsHexDigit(c) && IsLowerHexDigit(c)
    ensures DigitValue(c) == v
  {
    if v < 10 then ('0' as int + v) as char else ('a' as int + v - 10) as char
  }

  /** ASCII lower-casing of one hex digit. */
  function ToLowerDigit(c: char): (l: char)
    requires IsHexDigit(c)
    ensures IsLowerHexDigit(l) && DigitValue(l) == DigitValue(c)
  {
    if 'A' <= c <= 'F' then (c as int - 'A' as int + 'a' as int) as char else c
  }

  /** `parseInt(hi + lo, 16)` for two hex digits. */
  function ParsePair(hi: char, lo: char): (v: int)
    requires IsHexDigit(hi) && IsHexDigit(lo)
    ensures IsByte(v)
  {
    16 * DigitValue(hi) + DigitValue(lo)
  }

  /** `hex.replace('#', '')`: removes the first marker, wherever it is. */
  function StripMarker(s: string): (r: string)
    ensures Marker !in s ==> r == s
    ensures |s| > 0 && s[0] == Marker ==> r == s[1..]
    ensures |r| == if Marker in s then |s| - 1 else |s|
  {
    if |s| == 0 then s
    else if s[0] == Marker then s[1..]
    else [s[0]] + StripMarker(s[1..])
  }

  /** When `s` has a marker, the result is `s` with its first marker cut out. */
  lemma {:induction false} StripMarkerRemovesFirst(s: string)
    ensures Marker in s ==>
      exists k :: 0 <= k < |s| && s[k] == Marker && Marker !in s[..k] && StripMarker(s) == s[..k] + s[k + 1..]
    decreases |s|
  {
    if Marker in s {
      if s[0] == Marker {
        assert s[..0] + s[1..] == s[1..];
        assert s[0] == Marker && Marker !in s[..0] && StripMarker(s) == s[..0] + s[0 + 1..];
      } else {
        var t := s[1..];
        assert Marker in t by {
          var j :| 0 <= j < |s| && s[j] == Marker;
          assert t[j - 1] == Marker;
        }
        StripMarkerRemovesFirst(t);
        var k :| 0 <= k < |t| && t[k] == Marker && Marker !in t[..k] && StripMarker(t) == t[..k] + t[k + 1..];
        StripMarkerPastHead(s, k);
      }
    }
  }

  /** If the tail's first marker sits at `k`, the whole string's sits at `k + 1`, after a non-marker head. */
  lemma StripMarkerPastHead(s: string, k: nat)
    requires |s| > 0 && s[0] != Marker && k < |s| - 1
    requires s[1..][k] == Marker && Marker !in s[1..][..k]
    requires StripMarker(s[1..]) == s[1..][..k] + s[1..][k + 1..]
    ensures s[k + 1] == Marker && Marker !in s[..k + 1]
    ensures StripMarker(s) == s[..k + 1] + s[k + 1 + 1..]
  {
    var t := s[1..];
    var head := s[..k + 1];
    assert head == [s[0]] + t[..k];
    assert s[k + 2..] == t[k + 1..];
    calc {
      StripMarker(s);
      [s[0]] + StripMarker(t);
      [s[0]] + (t[..k] + t[k + 1..]);
      { SeqAssoc([s[0]], t[..k], t[k + 1..]); }
      head + s[k + 2..];
    }
    forall i | 0 <= i < |head|
      ensures head[i] != Marker
    {
      if i > 0 { assert head[i] == t[..k][i - 1]; }
    }
  }

  /** Concatenation is associative. */
  lemma SeqAssoc<T>(a: seq<T>, b: seq<T>, c: seq<T>)
    ensures a + (b + c) == (a + b) + c
  {
  }

  /**
   The channels `hexToRGBA` extracts: after stripping the marker, three
   digits are each doubled; otherwise the first three digit pairs are
   read. `None` stands for the inputs on which `parseInt` would not read
   two hex digits (see README).
   */
  function ParseHex(s: string): (c: Option<Rgb>)
    ensures c.Some? ==> ValidRgb(c.value)
    ensures var h := StripMarker(s);
            c.Some? <==> (|h| == 3 && AllHex(h)) || (|h| != 3 && |h| >= 6 && AllHex(h[..6]))
  {
    var h := StripMarker(s);
    if |h| == 3 then
      if AllHex(h) then Some(Rgb(ParsePair(h[0], h[0]), ParsePair(h[1], h[1]), ParsePair(h[2], h[2])))
      else None
    else if |h| >= 6 && AllHex(h[..6]) then
      Some(Rgb(ParsePair(h[0], h[1]), ParsePair(h[2], h[3]), ParsePair(h[4], h[5])))
    else None
  }

  /** The three-digit shorthand means the same colour as its digit-doubled six-digit form. */
  lemma ShorthandExpands(d0: char, d1: char, d2: char)
    requires IsHexDigit(d0) && IsHexDigit(d1) && IsHexDigit(d2)
    ensures ParseHex([Marker, d0, d1, d2]) == ParseHex([Marker, d0, d0, d1, d1, d2, d2])
    ensures ParseHex([Marker, d0, d1, d2]).Some?
  {
    var long := [Marker, d0, d0, d1, d1, d2, d2];
    assert StripMarker(long)[..6] == long[1..];
  }

  predicate AllLowerHex(s: string) {
    forall i :: 0 <= i < |s| ==> IsLowerHexDigit(s[i])
  }

  /** The number a string of hex digits denotes, most significant digit first. */
  function HexValue(s: string): nat
    requires AllHex(s)
  {
    if |s| == 0 then 0 else 16 * HexValue(s[..|s| - 1]) + DigitValue(s[|s| - 1])
  }

  lemma HexValueAppend(s: string, d: char)
    requires AllHex(s) && IsHexDigit(d)
    ensures AllHex(s + [d])
    ensures HexValue(s + [d]) == 16 * HexValue(s) + DigitValue(d)
  {
    assert (s + [d])[..|s|] == s;
  }

  /**
   `Number.prototype.toString(16)` of a non-negative integer: lower-case
   digits that denote `n`, without leading zeros.
   */
  function ToBase16(n: nat): (s: string)
    ensures 1 <= |s| && AllLowerHex(s)
    ensures HexValue(s) == n
    ensures |s| == 1 || s[0] != '0'
    ensures n < 16 <==> |s| == 1
    ensures n < 256 ==> |s| <= 2
    decreases n
  {
    if n < 16 then
      assert HexValue([LowerDigit(n)]) == HexValue([]) * 16 + n;
      [LowerDigit(n)]
    else
      var high := ToBase16(n / 16);
      HexValueAppend(high, LowerDigit(n % 16));
      high + [LowerDigit(n % 16)]
  }

  /** `String.prototype.padStart(len, fill)` with a one-character fill. */
  function PadStart(s: string, len: nat, fill: char): string
    decreases len - |s|
  {
    if |s| >= len then s else PadStart([fill] + s, len, fill)
  }

  /**
   One channel as `toString(16).padStart(2, '0')`: a byte always comes out
   as exactly two lower-case digits that read back as the byte.
   */
  function FormatChannel(n: int): (s: string)
    requires IsByte(n)
    ensures |s| == 2 && AllLowerHex(s)
    ensures ParsePair(s[0], s[1]) == n
  {
    var digits := ToBase16(n);
    var s := PadStart(digits, 2, '0');
    if n < 16 then
      assert s == PadStart(['0'] + digits, 2, '0');
      assert ['0'] + digits == ['0', digits[0]];
      assert HexValue(digits) == 16 * HexValue([]) + DigitValue(digits[0]);
      s
    else
      assert s == digits;
      assert HexValue(s[..1]) == 16 * HexValue([]) + DigitValue(s[0]);
      s
  }

  /** The colour picker's `#rrggbb` string for a pixel: the marker and six lower-case digits. */
  function FormatHex(c: Rgb): (s: string)
    requires ValidRgb(c)
    ensures |s| == 7 && s[0] == Marker
    ensures forall i :: 1 <= i < 7 ==> IsLowerHexDigit(s[i])
  {
    var r, g, b := FormatChannel(c.r), FormatChannel(c.g), FormatChannel(c.b);
    var s := [Marker] + r + g + b;
    assert s == [Marker, r[0], r[1], g[0], g[1], b[0], b[1]];
    s
  }

  /** Two hex digits. */
  predicate IsPair(p: string) {
    |p| == 2 && IsHexDigit(p[0]) && IsHexDigit(p[1])
  }

  /** A marker followed by six hex digits reads as three digit pairs. */
  lemma ParseSixDigits(h: string)
    requires |h| == 6 && AllHex(h)
    ensures ParseHex([Marker] + h) == Some(Rgb(ParsePair(h[0], h[1]), ParsePair(h[2], h[3]), ParsePair(h[4], h[5])))
  {
    assert StripMarker([Marker] + h) == h;
    assert h[..6] == h;
  }

  /** A marker followed by three digit pairs reads pair by pair. */
  lemma ParsePairs(p: string, q: string, w: string)
    requires IsPair(p) && IsPair(q) && IsPair(w)
    ensures ParseHex([Marker] + p + q + w) == Some(Rgb(ParsePair(p[0], p[1]), ParsePair(q[0], q[1]), ParsePair(w[0], w[1])))
  {
    var h := p + q + w;
    assert [Marker] + p + q + w == [Marker] + h;
    ParseSixDigits(h);
  }

  /** Formatting then parsing gives back the channels. */
  lemma FormatThenParse(c: Rgb)
    requires ValidRgb(c)
    ensures ParseHex(FormatHex(c)) == Some(c)
  {
    ParsePairs(FormatChannel(c.r), FormatChannel(c.g), FormatChannel(c.b));
  }

  /** Two digit pairs with the same value have the same digits' values. */
  lemma PairValuesUnique(a: int, b: int, c: int, d: int)
    requires 0 <= a < 16 && 0 <= b < 16 && 0 <= c < 16 && 0 <= d < 16
    requires 16 * a + b == 16 * c + d
    ensures a == c && b == d
  {
  }

  /** A lower-case digit is the lower-cased form of any digit of the same value. */
  lemma LowerDigitUnique(x: char, y: char)
    requires IsLowerHexDigit(x) && IsHexDigit(y) && DigitValue(x) == DigitValue(y)
    ensures x == ToLowerDigit(y)
  {
  }

  /** A digit pair formats back, through its value, as the pair in lower case. */
  lemma PairThroughValue(hi: char, lo: char)
    requires IsHexDigit(hi) && IsHexDigit(lo)
    ensures FormatChannel(ParsePair(hi, lo)) == [ToLowerDigit(hi), ToLowerDigit(lo)]
  {
    var s := FormatChannel(ParsePair(hi, lo));
    PairValuesUnique(DigitValue(s[0]), DigitValue(s[1]), DigitValue(hi), DigitValue(lo));
    LowerDigitUnique(s[0], hi);
    LowerDigitUnique(s[1], lo);
  }

  /** Formatting the channels three digit pairs denote lower-cases the pairs. */
  lemma FormatOfPairs(h: string)
    requires |h| == 6 && AllHex(h)
    ensures var s := FormatHex(Rgb(ParsePair(h[0], h[1]), ParsePair(h[2], h[3]), ParsePair(h[4], h[5])));
            forall i :: 0 <= i < 6 ==> s[i + 1] == ToLowerDigit(h[i])
  {
    var r, g, b := ParsePair(h[0], h[1]), ParsePair(h[2], h[3]), ParsePair(h[4], h[5]);
    PairThroughValue(h[0], h[1]);
    PairThroughValue(h[2], h[3]);
    PairThroughValue(h[4], h[5]);
    var s := FormatHex(Rgb(r, g, b));
    assert s == [Marker] + FormatChannel(r) + FormatChannel(g) + FormatChannel(b);
  }

  /**
   Parsing a `#` + six-digit colour and formatting it again gives the
   marker and the same digits in lower case.
   */
  lemma ParseThenFormat(h: string)
    requires |h| == 6 && AllHex(h)
    ensures ParseHex([Marker] + h).Some?
    ensures var s := FormatHex(ParseHex([Marker] + h).value);
            s[0] == Marker && forall i :: 0 <= i < 6 ==> s[i + 1] == ToLowerDigit(h[i])
  {
    ParseSixDigits(h);
    FormatOfPairs(h);
  }
}

=== FILE: palette.dfy ===
/**
 The palette store: the built-in default colours, `loadPalette`,
 `savePalette` and `addColorToPalette`.

 `localStorage` and `JSON.parse`/`JSON.stringify` are outside the model:
 loading takes the outcome of parsing the stored string, and saving
 records the value that would be serialised.
 */
module Palette {
  import opened Wrappers

  /** A parsed JSON value. A palette read back from storage may hold any of them. */
  datatype Json =
    | Null
    | Bool(b: bool)
    | Number(n: real)
    | Str(s: string)
    | Array(items: seq<Json>)
    | Object(members: seq<(string, Json)>)

  /** What `JSON.parse` did with the stored string (a missing key parses as `null`). */
  datatype Parsed = ParseError | Parsed(value: Json)

  /** `defaultPaletteColors`: a qualitative colour wheel plus black and white. */
  const DefaultColors: seq<string> := [
    "#000000", "#FF7F0E", "#2CA02C", "#D62728", "#9467BD",
    "#8C564B", "#E377C2", "#7F7F7F", "#BCBD22", "#17BECF",
    "#003F5C", "#58508D", "#FF6361", "#FFA600", "#A05195",
    "#665191", "#2E8B57", "#FFD700", "#00CED1", "#FFFFFF"
  ]

  /** The default colours as palette entries (`[...defaultPaletteColors]`). */
  function DefaultPalette(): (p: seq<Json>)
    ensures |p| == |DefaultColors|
    ensures forall i :: 0 <= i < |p| ==> p[i] == Str(DefaultColors[i])
  {
    seq(|DefaultColors|, i requires 0 <= i < |DefaultColors| => Str(DefaultColors[i]))
  }

  predicate NoDuplicates<T(==)>(s: seq<T>) {
    forall i, j :: 0 <= i < j < |s| ==> s[i] != s[j]
  }

  /** The built-in list has twenty pairwise distinct colours. */
  lemma DefaultPaletteDistinct()
    ensures |DefaultPalette()| == 20
    ensures NoDuplicates(DefaultPalette())
  {
    var d := DefaultColors;
    forall i, j | 0 <= i < j < |d|
      ensures d[i] != d[j]
    {
      assert d[i][1..] != d[j][1..];
    }
  }

  /**
   `loadPalette`: a non-empty array is taken as it is, whatever its
   elements; a parse failure, `null`, any other value or an empty array
   gives a fresh copy of the default list.
   */
  function Load(stored: Parsed): (p: seq<Json>)
    ensures |p| > 0
    ensures stored.Parsed? && stored.value.Array? && |stored.value.items| > 0 ==> p == stored.value.items
    ensures !(stored.Parsed? && stored.value.Array? && |stored.value.items| > 0) ==> p == DefaultPalette()
  {
    match stored
    case Parsed(Array(items)) =>
      if |items| > 0 then items else DefaultPalette()
    case _ => DefaultPalette()
  }

  /** The palette state and the value last written to storage (`None` before any write). */
  datatype Store = Store(colors: seq<Json>, saved: Option<Json>)

  /** `savePalette(colors)`: the value serialised into storage. */
  function Save(colors: seq<Json>): (saved: Json)
    ensures |colors| > 0 ==> Load(Parsed(saved)) == colors
    ensures |colors| == 0 ==> Load(Parsed(saved)) == DefaultPalette()
  {
    Array(colors)
  }

  /** Loading what was saved gives back the palette, exactly when the palette is non-empty. */
  lemma LoadSaved(colors: seq<Json>)
    ensures Load(Parsed(Save(colors))) == colors <==> |colors| > 0
  {
  }

  /**
   `addColorToPalette(color)`: appends the colour and saves the list only
   when no entry is the same string; entries are compared exactly,
   case included.
   */
  function Add(st: Store, color: string): (r: Store)
    ensures Str(color) in r.colors
    ensures |st.colors| <= |r.colors| <= |st.colors| + 1
    ensures r.colors[..|st.colors|] == st.colors
    ensures Str(color) in st.colors <==> r == st
    ensures Str(color) !in st.colors ==> r.colors[|st.colors|] == Str(color) && r.saved == Some(Save(r.colors))
    ensures NoDuplicates(st.colors) ==> NoDuplicates(r.colors)
  {
    if Str(color) in st.colors then st
    else
      var colors := st.colors + [Str(color)];
      Store(colors, Some(Save(colors)))
  }

  /** Adding the same colour again changes nothing. */
  lemma AddIdempotent(st: Store, color: string)
    ensures Add(Add(st, color), color) == Add(st, color)
  {
  }

  /** Adding grows the set of entries by exactly the new colour. */
  lemma AddEntries(st: Store, color: string)
    ensures (set x | x in Add(st, color).colors) == (set x | x in st.colors) + {Str(color)}
  {
    var r := Add(st, color);
    if Str(color) !in st.colors {
      assert r.colors == st.colors + [Str(color)];
    }
  }

  /**
   The comparison is case-sensitive: the picker's lower-case spelling of
   the default orange is appended although `#FF7F0E` is already there.
   */
  lemma AddIsCaseSensitive()
    ensures var r := Add(Store(DefaultPalette(), None), "#ff7f0e");
            && |r.colors| == 21
            && Str("#FF7F0E") in r.colors && Str("#ff7f0e") in r.colors
  {
    var d := DefaultPalette();
    assert d[1] == Str("#FF7F0E");
    forall i | 0 <= i < |d|
      ensures d[i] != Str("#ff7f0e")
    {
      assert DefaultColors[i][1..] != "ff7f0e";
    }
  }

  /** After an add that appends, loading the saved value restores the palette. */
  lemma AddThenReload(st: Store, color: string)
    requires Str(color) !in st.colors
    ensures var r := Add(st, color);
            r.saved.Some? && Load(Parsed(r.saved.value)) == r.colors
  {
  }
}

=== FILE: picker.dfy ===
/**
 The right-click colour picker: reads one pixel of the rendered scene and,
 when it is not fully transparent, turns it into the picker's `#rrggbb`
 value.
 */
module Picker {
  import opened Wrappers
  import opened HexColor
  import opened Region

  /**
   The colour after a right click at buffer coordinates `(x, y)`: the
   pixel's `#rrggbb`, in lower case, when its alpha byte exists and is positive, otherwise
   the current colour (reading past the buffer gives `undefined`, and
   `undefined > 0` is false).
   */
  function PickColor(pixels: seq<Byte>, x: int, y: int, width: int, current: string): (r: string)
    ensures var o := PixelOffset(x, y, width);
            0 <= o && o + 3 < |pixels| && pixels[o + 3] > 0 ==>
              && |r| == 7 && r[0] == Marker
              && (forall i :: 1 <= i < 7 ==> IsLowerHexDigit(r[i]))
              && ParseHex(r) == Some(Rgb(pixels[o], pixels[o + 1], pixels[o + 2]))
    ensures var o := PixelOffset(x, y, width);
            !(0 <= o && o + 3 < |pixels| && pixels[o + 3] > 0) ==> r == current
  {
    var o := PixelOffset(x, y, width);
    if 0 <= o && o + 3 < |pixels| && pixels[o + 3] > 0 then
      var c := Rgb(pixels[o], pixels[o + 1], pixels[o + 2]);
      FormatThenParse(c);
      FormatHex(c)
    else current
  }

  /**
   On a full `width * height` buffer, a click inside the canvas picks that
   pixel exactly when it is painted (alpha above zero).
   */
  lemma PickInsideCanvas(pixels: seq<Byte>, x: int, y: int, width: int, height: int, current: string)
    requires |pixels| == width * height * Channels
    requires 0 <= x < width && 0 <= y < height
    ensures var o := PixelOffset(x, y, width);
            var r := PickColor(pixels, x, y, width, current);
            && 0 <= o && o + 3 < |pixels|
            && (pixels[o + 3] > 0 ==> ParseHex(r) == Some(Rgb(pixels[o], pixels[o + 1], pixels[o + 2])))
            && (pixels[o + 3] == 0 ==> r == current)
  {
    PixelChannelsInBuffer(x, y, width, height);
  }
}

=== FILE: pointer.dfy ===
/**
 The pointer handlers as a two-state machine over `isDrawing` and
 `lastPos` (the `pointerdown`, `pointermove`, `pointerup` and
 `pointerleave` listeners of script.js). Each event yields the next state
 and the stamp centres it sprays.
 */
module Pointer {
  import opened Wrappers
  import opened Stroke

  /** `isDrawing` and `lastPos` (`None` for `null`). */
  datatype DrawState = DrawState(isDrawing: bool, lastPos: Option<Point>)

  /** The state at start-up and after a release. */
  const Idle: DrawState := DrawState(false, None)

  /** `e.button` of the secondary (right) mouse button, reserved for colour picking. */
  const SecondaryButton: int := 2

  /** Pointer events, already converted to surface-local coordinates. */
  datatype Event =
    | Down(at: Point, button: int)
    | Move(at: Point)
    | Up
    | Leave

  /** The next state and the stamps one event sprays. */
  datatype Reaction = Reaction(state: DrawState, stamps: seq<Point>)

  /** The states the handlers can reach: a position is retained exactly while drawing. */
  predicate Consistent(s: DrawState) {
    s.isDrawing <==> s.lastPos.Some?
  }

  /** One event handler run to completion, with the brush size of the slider. */
  function Step(s: DrawState, e: Event, size: real): (r: Reaction)
    requires size > 0.0
    ensures (e.Up? || e.Leave?) ==> r == Reaction(Idle, [])
    ensures e.Down? && e.button == SecondaryButton ==> r == Reaction(s, [])
    ensures e.Down? && e.button != SecondaryButton ==> r == Reaction(DrawState(true, Some(e.at)), [e.at])
    ensures e.Move? && !s.isDrawing ==> r == Reaction(s, [])
    ensures e.Move? && s.isDrawing ==> r.state == DrawState(true, Some(e.at)) && 1 <= |r.stamps| <= MaxSteps
    ensures e.Move? && s.isDrawing && s.lastPos.Some? ==> r.stamps[0] == s.lastPos.value
    ensures Consistent(s) ==> Consistent(r.state)
  {
    match e
    case Down(p, button) =>
      if button == SecondaryButton then Reaction(s, [])
      else
        // `lastPos` is set to the press point before `handleDrawing` runs
        var adv := HandleDrawing(Some(p), p, size);
        HandleDrawingAtRest(p, size);
        Reaction(DrawState(true, Some(adv.lastPos)), adv.stamps)
    case Move(p) =>
      if !s.isDrawing then Reaction(s, [])
      else
        var adv := HandleDrawing(s.lastPos, p, size);
        Reaction(DrawState(true, Some(adv.lastPos)), adv.stamps)
    case Up => Reaction(Idle, [])
    case Leave => Reaction(Idle, [])
  }

  /**
   A sequence of events handled in order; the stamps of all events
   concatenated. The program reads the brush slider afresh at every event;
   one `size` stands for all of them here, and since every property of a
   run below holds event by event for any positive size, none depends on
   the slider staying put.
   */
  function Run(s: DrawState, events: seq<Event>, size: real): Reaction
    requires size > 0.0
    decreases |events|
  {
    if |events| == 0 then Reaction(s, [])
    else
      var first := Step(s, events[0], size);
      var rest := Run(first.state, events[1..], size);
      Reaction(rest.state, first.stamps + rest.stamps)
  }

  /** An event that starts a stroke. */
  predicate IsPress(e: Event) {
    e.Down? && e.button != SecondaryButton
  }

  /** Every run from a consistent state ends in a consistent state. */
  lemma {:induction false} RunKeepsConsistent(s: DrawState, events: seq<Event>, size: real)
    requires size > 0.0 && Consistent(s)
    ensures Consistent(Run(s, events, size).state)
    decreases |events|
  {
    if |events| > 0 {
      RunKeepsConsistent(Step(s, events[0], size).state, events[1..], size);
    }
  }

  /** Without a press, a run from a non-drawing state sprays nothing and stays non-drawing. */
  lemma {:induction false} NoPressNoPaint(s: DrawState, events: seq<Event>, size: real)
    requires size > 0.0 && !s.isDrawing
    requires forall i :: 0 <= i < |events| ==> !IsPress(events[i])
    ensures Run(s, events, size).stamps == []
    ensures !Run(s, events, size).state.isDrawing
    decreases |events|
  {
    if |events| > 0 {
      NoPressNoPaint(Step(s, events[0], size).state, events[1..], size);
    }
  }

  /** No event sprays more than seven stamps, so a run of `n` events sprays at most `7 n`. */
  lemma {:induction false} RunStampBound(s: DrawState, events: seq<Event>, size: real)
    requires size > 0.0
    ensures |Run(s, events, size).stamps| <= MaxSteps * |events|
    decreases |events|
  {
    if |events| > 0 {
      RunStampBound(Step(s, events[0], size).state, events[1..], size);
    }
  }

  /** A press followed by a move sprays the press point, then starts interpolating from it. */
  lemma PressThenMove(s: DrawState, p: Point, q: Point, button: int, size: real)
    requires size > 0.0 && button != SecondaryButton
    ensures var r := Run(s, [Down(p, button), Move(q)], size);
            && r.state == DrawState(true, Some(q))
            && 2 <= |r.stamps| <= 1 + MaxSteps
            && r.stamps[0] == p && r.stamps[1] == p
  {
    var first := Step(s, Down(p, button), size);
    var second := Step(first.state, Move(q), size);
    assert [Down(p, button), Move(q)][1..] == [Move(q)];
    assert Run(first.state, [Move(q)], size).stamps == second.stamps;
  }
}

=== FILE: region.dfy ===
/**
 Integer geometry of the surface read-back: the clamp in `extractRegion`
 that keeps a requested rectangle inside the source canvas, and the byte
 offset of a pixel in an RGBA buffer.
 */
module Region {

  function Min(a: int, b: int): int {
    if a < b then a else b
  }

  function Max(a: int, b: int): int {
    if a < b then b else a
  }

  /** A start coordinate and an extent along one axis. */
  datatype Span = Span(start: int, extent: int)

  /**
   One axis of the `extractRegion` clamp:
   `safe = max(0, min(pos, source - extent))`, then
   `safeExtent = min(extent, source - safe)`.
   */
  function ClampSpan(pos: int, extent: int, source: int): (r: Span)
    ensures r.start >= 0
    ensures r.extent <= extent
    ensures r.start + r.extent <= source
    ensures extent <= source ==> r.extent == extent
    ensures 0 <= extent <= source ==> r.start + extent <= source
    ensures 0 <= pos && pos + extent <= source ==> r == Span(pos, extent)
    ensures extent > source ==> r == Span(0, source)
    ensures 0 <= extent <= source && pos < 0 ==> r.start == 0
    ensures 0 <= extent <= source && pos + extent > source ==> r.start == source - extent
  {
    var safe := Max(0, Min(pos, source - extent));
    Span(safe, Min(extent, source - safe))
  }

  /** Clamping a clamped span changes nothing. */
  lemma ClampSpanIdempotent(pos: int, extent: int, source: int)
    ensures var r := ClampSpan(pos, extent, source);
            ClampSpan(r.start, r.extent, source) == r
  {
  }

  /** A rectangle of the source canvas. */
  datatype Rect = Rect(x: int, y: int, width: int, height: int)

  /** The rectangle lies inside a `sourceWidth` by `sourceHeight` canvas. */
  predicate Inside(r: Rect, sourceWidth: int, sourceHeight: int) {
    && 0 <= r.x && 0 <= r.width && r.x + r.width <= sourceWidth
    && 0 <= r.y && 0 <= r.height && r.y + r.height <= sourceHeight
  }

  /**
   The rectangle `extractRegion(renderer, x, y, width, height)` reads from
   the source canvas. A request that fits is read as it is; a request
   wider (taller) than the canvas is cut to the whole canvas width
   (height); otherwise the origin is pulled back inside.
   */
  function ExtractRegion(x: int, y: int, width: int, height: int, sourceWidth: int, sourceHeight: int): (r: Rect)
    ensures r.x >= 0 && r.y >= 0
    ensures r.width <= width && r.height <= height
    ensures r.x + r.width <= sourceWidth && r.y + r.height <= sourceHeight
    ensures 0 <= width <= sourceWidth ==> r.width == width && r.x + width <= sourceWidth
    ensures 0 <= height <= sourceHeight ==> r.height == height && r.y + height <= sourceHeight
    ensures Inside(Rect(x, y, width, height), sourceWidth, sourceHeight) ==> r == Rect(x, y, width, height)
    ensures 0 <= width && 0 <= height && 0 <= sourceWidth && 0 <= sourceHeight ==> Inside(r, sourceWidth, sourceHeight)
    ensures 0 <= width <= sourceWidth && x < 0 ==> r.x == 0
    ensures 0 <= width <= sourceWidth && x + width > sourceWidth ==> r.x == sourceWidth - width
    ensures 0 <= height <= sourceHeight && y < 0 ==> r.y == 0
    ensures 0 <= height <= sourceHeight && y + height > sourceHeight ==> r.y == sourceHeight - height
  {
    var h := ClampSpan(x, width, sourceWidth);
    var v := ClampSpan(y, height, sourceHeight);
    Rect(h.start, v.start, h.extent, v.extent)
  }

  /** Bytes per pixel in an RGBA buffer. */
  const Channels: int := 4

  /** `(y * width + x) * 4`: where pixel `(x, y)` starts in a row-major RGBA buffer. */
  function PixelOffset(x: int, y: int, width: int): int {
    (y * width + x) * Channels
  }

  lemma RowIndexBound(x: int, y: int, width: int, height: int)
    requires 0 <= x < width && 0 <= y < height
    ensures 0 <= y * width + x < width * height
  {
    assert y * width <= (height - 1) * width;
  }

  /** The four channels of an in-canvas pixel lie inside a `width * height * 4` buffer. */
  lemma PixelChannelsInBuffer(x: int, y: int, width: int, height: int)
    requires 0 <= x < width && 0 <= y < height
    ensures 0 <= PixelOffset(x, y, width)
    ensures PixelOffset(x, y, width) + Channels - 1 < width * height * Channels
  {
    RowIndexBound(x, y, width, height);
  }

  /** Distinct in-canvas pixels occupy disjoint groups of four bytes. */
  lemma PixelsDisjoint(x1: int, y1: int, x2: int, y2: int, width: int, height: int)
    requires 0 <= x1 < width && 0 <= y1 < height
    requires 0 <= x2 < width && 0 <= y2 < height
    requires (x1, y1) != (x2, y2)
    ensures PixelOffset(x1, y1, width) + Channels <= PixelOffset(x2, y2, width)
         || PixelOffset(x2, y2, width) + Channels <= PixelOffset(x1, y1, width)
  {
    if y1 < y2 {
      assert (y1 + 1) * width <= y2 * width;
    } else if y2 < y1 {
      assert (y2 + 1) * width <= y1 * width;
    }
  }
}

=== FILE: stroke.dfy ===
/**
 Stroke interpolation: how one pointer event becomes a sequence of stamp
 centres (`lerp` and `handleDrawing` in script.js).

 Coordinates are reals standing in for JavaScript numbers. The distance
 `Math.sqrt(dx*dx + dy*dy)` is never computed: the step count is derived
 from the squared distance, and `SquaredStepCountAgrees` shows that this
 equals `floor(dist / (size / 3))` clamped to 1..7 for the true distance.
 */
module Stroke {
  import opened Wrappers

  /** A pointer position in surface-local pixel coordinates. */
  datatype Point = Point(x: real, y: real)

  /** The most stamps one pointer event may produce (`maxSteps`). */
  const MaxSteps: int := 7

  /** Stamp spacing is a third of the brush size. */
  const SpacingDivisor: real := 3.0

  /** Linear interpolation between two coordinates (`lerp`). */
  function Lerp(a: real, b: real, t: real): (r: real)
    ensures t == 0.0 ==> r == a
    ensures t == 1.0 ==> r == b
  {
    a + (b - a) * t
  }

  /** For `t` in `[0, 1]` the interpolated value lies between the endpoints. */
  lemma LerpStaysBetween(a: real, b: real, t: real)
    requires 0.0 <= t <= 1.0
    ensures a <= b ==> a <= Lerp(a, b, t) <= b
    ensures b <= a ==> b <= Lerp(a, b, t) <= a
  {
    if a <= b {
      ProductNonNegative(b - a, t);
      ProductNonNegative(b - a, 1.0 - t);
    } else {
      ProductNonNegative(a - b, t);
      ProductNonNegative(a - b, 1.0 - t);
    }
  }

  lemma ProductNonNegative(u: real, v: real)
    requires u >= 0.0 && v >= 0.0
    ensures u * v >= 0.0
  {
  }

  lemma ProductPositive(u: real, v: real)
    requires u > 0.0 && v > 0.0
    ensures u * v > 0.0
  {
  }

  lemma ZeroProductFactor(u: real, v: real)
    requires u * v == 0.0 && v != 0.0
    ensures u == 0.0
  {
  }

  /** Both coordinates interpolated with the same parameter. */
  function LerpPoint(p: Point, q: Point, t: real): (r: Point)
    ensures t == 0.0 ==> r == p
    ensures t == 1.0 ==> r == q
  {
    Point(Lerp(p.x, q.x, t), Lerp(p.y, q.y, t))
  }

  /** `r` lies in the axis-aligned box spanned by `p` and `q`. */
  predicate InBox(r: Point, p: Point, q: Point) {
    && (p.x <= r.x <= q.x || q.x <= r.x <= p.x)
    && (p.y <= r.y <= q.y || q.y <= r.y <= p.y)
  }

  /**
   The number of stamps for a move of length `dist` with brush `size`:
   `floor(dist / (size / 3))`, then `Math.min(7, .)`, then raised to 1.
   */
  function StepCount(dist: real, size: real): (steps: int)
    requires dist >= 0.0 && size > 0.0
    ensures 1 <= steps <= MaxSteps
    ensures steps == 1 || steps as real <= dist / (size / SpacingDivisor)
    ensures steps == MaxSteps || dist / (size / SpacingDivisor) < (steps + 1) as real
  {
    var stepDist := size / SpacingDivisor;
    var floored := (dist / stepDist).Floor;
    var capped := if MaxSteps < floored then MaxSteps else floored;
    if capped < 1 then 1 else capped
  }

  /** The two bounds in `StepCount`'s contract pin the count down uniquely. */
  lemma StepCountUnique(dist: real, size: real, k: int)
    requires dist >= 0.0 && size > 0.0
    requires 1 <= k <= MaxSteps
    requires k == 1 || k as real <= dist / (size / SpacingDivisor)
    requires k == MaxSteps || dist / (size / SpacingDivisor) < (k + 1) as real
    ensures k == StepCount(dist, size)
  {
  }

  /**
   The largest `k` in `1..limit` such that `k` stamp spacings fit into a
   distance whose square is `dist2`, and 1 when none does.
   */
  function StepsWithin(dist2: real, stepDist: real, limit: int): int
    decreases limit
  {
    if limit <= 1 then 1
    else if (limit as real * stepDist) * (limit as real * stepDist) <= dist2 then limit
    else StepsWithin(dist2, stepDist, limit - 1)
  }

  /** The step count computed from the squared distance only. */
  function StepCountFromSquare(dist2: real, size: real): (steps: int)
    requires size > 0.0
    ensures 1 <= steps <= MaxSteps
  {
    StepsWithinBounds(dist2, size / SpacingDivisor, MaxSteps);
    StepsWithin(dist2, size / SpacingDivisor, MaxSteps)
  }

  lemma SquareMonotone(a: real, b: real)
    requires a >= 0.0 && b >= 0.0
    ensures a * a <= b * b <==> a <= b
  {
    assert b * b - a * a == (b - a) * (b + a);
    if a <= b {
      ProductNonNegative(b - a, b + a);
    } else {
      ProductPositive(a - b, a + b);
    }
  }

  lemma ScaledBound(k: real, stepDist: real, dist: real)
    requires stepDist > 0.0
    ensures k * stepDist <= dist <==> k <= dist / stepDist
  {
    var q := dist / stepDist;
    assert q * stepDist == dist;
    if k <= q {
      assert k * stepDist <= q * stepDist;
    } else {
      assert q * stepDist < k * stepDist;
    }
  }

  lemma {:induction false} StepsWithinIsClampedFloor(dist: real, stepDist: real, limit: int)
    requires dist >= 0.0 && stepDist > 0.0 && limit >= 1
    ensures var f := (dist / stepDist).Floor;
            StepsWithin(dist * dist, stepDist, limit) == if f >= limit then limit else if f < 1 then 1 else f
    decreases limit
  {
    var f := (dist / stepDist).Floor;
    if limit > 1 {
      var span := limit as real * stepDist;
      SquareMonotone(span, dist);
      ScaledBound(limit as real, stepDist, dist);
      if span * span > dist * dist {
        StepsWithinIsClampedFloor(dist, stepDist, limit - 1);
      }
    }
  }

  /**
   For every admissible distance (non-negative, squaring to `dist2`) the
   square-based count equals the source's `floor`/`min`/`max` count.
   */
  lemma SquaredStepCountAgrees(dist: real, dist2: real, size: real)
    requires dist >= 0.0 && dist * dist == dist2 && size > 0.0
    ensures StepCountFromSquare(dist2, size) == StepCount(dist, size)
  {
    StepsWithinIsClampedFloor(dist, size / SpacingDivisor, MaxSteps);
  }

  /** Interpolation parameter of stamp `i` out of `steps`: `t = i / steps`. */
  function StepParameter(i: int, steps: int): (t: real)
    requires 0 <= i < steps
    ensures 0.0 <= t < 1.0
  {
    i as real / steps as real
  }

  /** A point interpolated with `t < 1` equals the target only when source and target coincide. */
  lemma LerpBelowOneMissesTarget(p: Point, q: Point, t: real)
    requires t < 1.0
    ensures LerpPoint(p, q, t) == q ==> p == q
  {
    if LerpPoint(p, q, t) == q {
      assert (q.x - p.x) * (1.0 - t) == 0.0;
      assert (q.y - p.y) * (1.0 - t) == 0.0;
      ZeroProductFactor(q.x - p.x, 1.0 - t);
      ZeroProductFactor(q.y - p.y, 1.0 - t);
    }
  }

  /**
   The stamp centres of one interpolated move: stamp `i` sits at
   `lerp(last, cur, i / steps)` for `i` in `0..steps-1`.
   */
  function Interpolated(last: Point, cur: Point, steps: nat): (stamps: seq<Point>)
    ensures |stamps| == steps
    ensures steps > 0 ==> stamps[0] == last
    ensures last != cur ==> cur !in stamps
    ensures forall i :: 0 <= i < steps ==> InBox(stamps[i], last, cur)
  {
    var stamps := seq(steps, i requires 0 <= i < steps => LerpPoint(last, cur, StepParameter(i, steps)));
    forall i | 0 <= i < steps
      ensures stamps[i] != cur || last == cur
      ensures InBox(stamps[i], last, cur)
    {
      var t := StepParameter(i, steps);
      LerpBelowOneMissesTarget(last, cur, t);
      LerpStaysBetween(last.x, cur.x, t);
      LerpStaysBetween(last.y, cur.y, t);
    }
    stamps
  }

  /** Consecutive interpolated stamps are a constant `(cur - last) / steps` apart. */
  lemma InterpolatedEvenlySpaced(last: Point, cur: Point, steps: nat, i: nat)
    requires i + 1 < steps
    ensures var s := Interpolated(last, cur, steps);
            && s[i + 1].x - s[i].x == (cur.x - last.x) / steps as real
            && s[i + 1].y - s[i].y == (cur.y - last.y) / steps as real
  {
    var n := steps as real;
    var u, v := StepParameter(i, steps), StepParameter(i + 1, steps);
    assert v - u == 1.0 / n;
    LerpDifference(last.x, cur.x, u, v, n);
    LerpDifference(last.y, cur.y, u, v, n);
  }

  lemma LerpDifference(a: real, b: real, u: real, v: real, n: real)
    requires n > 0.0 && v - u == 1.0 / n
    ensures Lerp(a, b, v) - Lerp(a, b, u) == (b - a) / n
  {
    assert Lerp(a, b, v) - Lerp(a, b, u) == (b - a) * (v - u);
  }

  /**
   The `for` loop of `handleDrawing`: emits the stamps one at a time, in
   order, and yields exactly the interpolated sequence.
   */
  method InterpolateLoop(last: Point, cur: Point, steps: nat) returns (stamps: seq<Point>)
    ensures stamps == Interpolated(last, cur, steps)
  {
    stamps := [];
    var i := 0;
    while i < steps
      invariant 0 <= i <= steps
      invariant |stamps| == i
      invariant forall j :: 0 <= j < i ==> stamps[j] == LerpPoint(last, cur, StepParameter(j, steps))
    {
      var t := StepParameter(i, steps);
      stamps := stamps + [Point(Lerp(last.x, cur.x, t), Lerp(last.y, cur.y, t))];
      i := i + 1;
    }
  }

  /** The outcome of `handleDrawing`: the stamps emitted and the new `lastPos`. */
  datatype Advance = Advance(stamps: seq<Point>, lastPos: Point)

  /**
   `handleDrawing(currentPos)`: with no retained position one stamp at the
   current position; otherwise the clamped number of interpolated stamps
   from the retained position. Either way the current position is retained.
   */
  function HandleDrawing(lastPos: Option<Point>, cur: Point, size: real): (r: Advance)
    requires size > 0.0
    ensures r.lastPos == cur
    ensures 1 <= |r.stamps| <= MaxSteps
    ensures lastPos.None? ==> r.stamps == [cur]
    ensures lastPos.Some? ==> r.stamps[0] == lastPos.value
    ensures lastPos.Some? && lastPos.value != cur ==> cur !in r.stamps
    ensures lastPos.Some? ==> forall i :: 0 <= i < |r.stamps| ==> InBox(r.stamps[i], lastPos.value, cur)
  {
    match lastPos
    case None => Advance([cur], cur)
    case Some(last) =>
      var steps := StepCountFromSquare(SquaredDistance(last, cur), size);
      StepsWithinBounds(SquaredDistance(last, cur), size / SpacingDivisor, MaxSteps);
      Advance(Interpolated(last, cur, steps), cur)
  }

  /** `dx * dx + dy * dy`, the square of the Euclidean distance. */
  function SquaredDistance(p: Point, q: Point): real {
    (q.x - p.x) * (q.x - p.x) + (q.y - p.y) * (q.y - p.y)
  }

  lemma {:induction false} StepsWithinBounds(dist2: real, stepDist: real, limit: int)
    ensures 1 <= StepsWithin(dist2, stepDist, limit)
    ensures limit >= 1 ==> StepsWithin(dist2, stepDist, limit) <= limit
    decreases limit
  {
    if limit > 1 {
      StepsWithinBounds(dist2, stepDist, limit - 1);
    }
  }

  /**
   From a retained position, the number of stamps is exactly
   `clamp(floor(dist / (size / 3)), 1, 7)` for the Euclidean distance `dist`.
   */
  lemma HandleDrawingStampCount(last: Point, cur: Point, size: real, dist: real)
    requires size > 0.0
    requires dist >= 0.0
    requires dist * dist == SquaredDistance(last, cur)
    ensures |HandleDrawing(Some(last), cur, size).stamps| == StepCount(dist, size)
  {
    SquaredStepCountAgrees(dist, SquaredDistance(last, cur), size);
  }

  /** Without movement exactly one stamp is emitted, at the retained (= current) position. */
  lemma HandleDrawingAtRest(p: Point, size: real)
    requires size > 0.0
    ensures HandleDrawing(Some(p), p, size).stamps == [p]
  {
    HandleDrawingStampCount(p, p, size, 0.0);
  }
}

=== FILE: wrappers.dfy ===
/** The optional-value datatype used where the program uses `null`. */
module Wrappers {

  /** `None` stands for JavaScript's `null`. */
  datatype Option<+T> = None | Some(value: T)
}
